=== FILE: README.md ===
# smolu_dsmc in Dafny

A model of the two direct-simulation Monte Carlo scripts of smolu_dsmc.
Both scripts simulate the Smoluchowski equation with the same two-channel
thinning scheme:

- `smoluchowski_dsmc_frag.py` runs coagulation against fragmentation.
- `smoluchowski_dsmc_rings.py` runs coagulation against cyclization into rings.

The population is an array of `ntot` molecule masses, where 0 marks an
empty slot. The scripts keep incremental counters next to it: `n_mol` and
`n_poly`, or `n_chains` and `n_rings` plus the ring store. Each channel has
a rate bound, `k_max` and `f_max`/`r_max`. The clock is `waiting_time`.

Each loop iteration does four things:

1. It picks a channel with probability `p_coag`.
2. It draws candidates and evaluates their true rate.
3. If the rate exceeds the channel's bound, it raises the bound and stops there.
4. Otherwise it accepts with probability rate/bound. An accepted event
   mutates the array and counters and advances the clock.

The model is functional:

- `Population` holds the array operations, the recounts and the mass sum.
  It also holds the pigeonhole lemma that guarantees an empty slot for a
  fragment, and the histogram.
- `Thinning` holds what both scripts share: the channel probability
  `1/(1+x/y)`, and the raise/accept/reject verdict with the bound update
  as `max`.
- `Fragmentation` models the fragmentation script.
- `Rings` models the ring script.
- `Results` holds `Option` and `Result`.

Each script module has an immutable `State`, a `Config`, an invariant
`Inv`, the two channel attempts, one loop iteration `Step` and the driver
`Run`. Every random number the scripts draw is an explicit argument:

- the channel coin and the acceptance coin, reals in [0, 1);
- the slot indices, passed with the script's own conditions (occupied,
  distinct, polymer, empty);
- the split-point draw, a real in [0, 1) mapped through `1+int(u*(mk-1))`.

The invariants say:

- Fragmentation: the masses sum to `ntot` in `ntot` slots, and `n_mol`/`n_poly`
  equal a full recount.
- Rings: chain mass plus ring mass is `ntot`, `n_chains` equals the recount,
  `n_rings` is the size of the ring store, and every ring is at least one
  monomer.
- Both: the bounds never fall below their initial values, and the clock is
  non-negative.

## Model

| member | source | states |
|---|---|---|
| Population.Count | smoluchowski_dsmc_frag.py:49-50 | a recount never exceeds the array length and is zero exactly when no slot of that class exists |
| Population.CountIsCardinality | smoluchowski_dsmc_frag.py:49-50 | the recount by class equals the number of slot indices holding a mass of that class |
| Population.OnesCounts | smoluchowski_dsmc_frag.py:42-50 | the initial all-monomer array of length n has mass n, n molecules and no polymer |
| Population.Merge | smoluchowski_dsmc_frag.py:89-90 | slot j receives mi+mj, slot i becomes empty, every other slot is unchanged, and the total mass is preserved |
| Population.Split | smoluchowski_dsmc_frag.py:134-135 | slot k keeps m1, the empty slot receives mk-m1 (at least 1), every other slot is unchanged, and the total mass is preserved |
| Population.SplitUndoesMerge | smoluchowski_dsmc_frag.py:89-90 | re-splitting a merged molecule at the old boundary into the vacated slot restores the array exactly |
| Population.MergeUndoesSplit | smoluchowski_dsmc_frag.py:134-135 | merging the two fragments of a split back restores the array exactly |
| Population.EmptySlotExists | smoluchowski_dsmc_frag.py:135 | pigeonhole: n slots holding mass n with one polymer leave an empty slot, so `where(masses==0)` is non-empty |
| Population.TwoOccupied | smoluchowski_dsmc_frag.py:65-69 | with at least two molecules there are two distinct occupied slots, so the partner-resampling loop has a target |
| Population.VacateCounts | smoluchowski_dsmc_rings.py:132-136 | emptying an occupied slot removes its mass from the sum and one molecule from the recount |
| Population.Histogram | smoluchowski_dsmc_frag.py:154-155 | each distinct non-zero mass appears once, in strictly increasing order, with its exact number of occurrences, and every occupied mass is listed |
| Thinning.Decide | smoluchowski_dsmc_frag.py:77-82 | the bound is raised exactly when the rate exceeds it; otherwise the attempt is accepted exactly when the coin falls below rate/bound and rejected exactly when it does not; whenever rate/bound is evaluated it lies in [0,1]; acceptance implies a positive rate; a rate equal to the bound is always accepted |
| Thinning.BoundAfter | smoluchowski_dsmc_frag.py:77-79 | the bound after a step is max(bound, rate), so it never decreases and covers the rate just seen |
| Thinning.ChannelProbability | smoluchowski_dsmc_frag.py:56 | the channel probability lies in (0,1] and is below 1 exactly when the second channel has positive weight |
| Fragmentation.Configure | smoluchowski_dsmc_frag.py:28-30 | a configuration is accepted exactly when 0 <= K_d <= 1; the other ranges are not checked by the script |
| Fragmentation.DefaultsAccepted | smoluchowski_dsmc_frag.py:18-25 | the script's hard-coded constants pass the K_d check and satisfy the parameter ranges |
| Fragmentation.KRate | smoluchowski_dsmc_frag.py:15-18 | for positive masses 1/mi+1/mj lies in (0,2], so k_max0=2 is a true bound, and it equals 2 exactly for two monomers |
| Fragmentation.FRate | smoluchowski_dsmc_frag.py:120 | the fragmentation rate lies in [0, K_d] and is positive exactly when K_d is |
| Fragmentation.SplitRate | smoluchowski_dsmc_frag.py:122 | the weighted rate (mk-1)*f_m1m2 compared with f_max is non-negative |
| Fragmentation.SplitPoint | smoluchowski_dsmc_frag.py:116-117 | 1+int(u*(mk-1)) for u in [0,1) lies in [1, mk-1], so both fragments are non-empty |
| Fragmentation.Init | smoluchowski_dsmc_frag.py:36-50 | the initial state satisfies the invariant, with n_mol = ntot, n_poly = 0 and clock 0 |
| Fragmentation.MassesBounded | smoluchowski_dsmc_frag.py:42 | under the invariant every slot lies in [0, ntot], so the int32 array cannot overflow for ntot < 2^31 |
| Fragmentation.PolyAfterMerge | smoluchowski_dsmc_frag.py:95-98 | the three-case n_poly rule after a merge adds one for the merged molecule (always a polymer) and removes one for each input polymer |
| Fragmentation.PolyAfterSplit | smoluchowski_dsmc_frag.py:140-143 | the three-case n_poly rule after a split removes one for the split polymer and adds one for each fragment that is a polymer |
| Fragmentation.MergeRecount | smoluchowski_dsmc_frag.py:93-98 | after a merge, n_mol-1 and the three-case n_poly rule both equal a full recount |
| Fragmentation.SplitRecount | smoluchowski_dsmc_frag.py:138-143 | after a split, n_mol+1 and the three-case n_poly rule both equal a full recount |
| Fragmentation.PolyRulesInverse | smoluchowski_dsmc_frag.py:140-143 | the split rule for n_poly undoes the merge rule and vice versa |
| Fragmentation.PCoag | smoluchowski_dsmc_frag.py:56 | with n_mol >= 2, k_max > 0 and density > 0, p_coag lies in (0,1] and is below 1 exactly when ntot, n_poly and f_max are all positive, so fragmentation is attempted only then |
| Thinning.MergeDelay | smoluchowski_dsmc_frag.py:86 | the merge time increment 2*Alpha*ntot/(n*(n-1)*density*k_ij), shared by both scripts, is non-negative for Alpha >= 0 and strictly positive exactly when Alpha > 0 and ntot > 0 |
| Fragmentation.SplitDelay | smoluchowski_dsmc_frag.py:131 | the split time increment is non-negative for Alpha <= 1 |
| Fragmentation.Coagulate | smoluchowski_dsmc_frag.py:65-98 | keeps the invariant (mass ntot, counters equal to a recount); k_max and f_max stay unchanged; the array changes exactly when the coin falls below k_ij/k_max; a rejected attempt changes nothing; an accepted one performs the merge, drops n_mol by one and advances the clock by the merge increment computed with the n_mol before the update |
| Fragmentation.CoagulationNeverRaises | smoluchowski_dsmc_frag.py:77-79 | under the invariant k_ij never exceeds k_max = max(k_max, k_ij), so the raise branch never fires |
| Fragmentation.Fragment | smoluchowski_dsmc_frag.py:108-143 | keeps the invariant; f_max = max(f_max, (mk-1)*f_m1m2); a raise changes nothing else; the array changes exactly when (mk-1)*f_m1m2 <= f_max and the coin falls below (mk-1)*f_m1m2/f_max; an accepted split writes the fragments, raises n_mol by one, keeps the bound and advances the clock by 2*(1-Alpha)/(n_poly*(mk-1)*f_m1m2) with the n_poly before the update; the clock never decreases |
| Fragmentation.PicksExist | smoluchowski_dsmc_frag.py:65-135 | whenever a channel is eligible, slot draws satisfying the script's conditions exist |
| Fragmentation.Step | smoluchowski_dsmc_frag.py:52-143 | one loop iteration keeps the invariant; the clock and both bounds never decrease; a bound raise changes nothing else; an iteration that leaves the array unchanged leaves the clock unchanged; with no polymer the channel coin always selects coagulation; below p_coag the array changes exactly when the merge passes its thinning test (coin below k_ij/k_max), and at or above it f_max is positive and the array changes exactly when the split passes its test; below p_coag the array is unchanged or merged at the drawn pair, with the merge increment added to the clock, and f_max is untouched; at or above p_coag a polymer exists and the array is unchanged or split at the drawn piece, split point and empty slot, with the split increment (pre-update n_poly) added to the clock |
| Fragmentation.Run | smoluchowski_dsmc_frag.py:52-58 | every run keeps the invariant and has a monotone clock and bounds; a division-by-zero report comes only from a running state with fewer than two molecules, and a running state with fewer than two molecules and a draw left reports it; a stopped guard returns the state unchanged |
| Fragmentation.ZeroHorizon | smoluchowski_dsmc_frag.py:52 | with time_max <= 0 the loop never runs and the all-monomer array is returned |
| Fragmentation.MonomerMergeThenSplit | smoluchowski_dsmc_frag.py:89-143 | merging two monomers and splitting the dimer (forced split point 1) restores the array and n_poly |
| Rings.KRate | smoluchowski_dsmc_rings.py:18-19 | the coagulation kernel is positive on positive masses |
| Rings.RRate | smoluchowski_dsmc_rings.py:22-23 | the cyclization rate is non-negative on positive masses and positive exactly when the prefactor is |
| Rings.Init | smoluchowski_dsmc_rings.py:39-52 | the initial state satisfies the invariant, with n_chains = ntot, no rings and clock 0 |
| Rings.PCoag | smoluchowski_dsmc_rings.py:58 | with n_chains >= 2, k_max > 0, r_max >= 0 and density > 0, p_coag lies in (0,1] and is below 1 exactly when ntot and r_max are positive; with glob_pref = 0 (r_max = 0) only coagulation is attempted |
| Rings.RingDelay | smoluchowski_dsmc_rings.py:128 | the cyclization time increment is non-negative for Alpha <= 1 |
| Rings.Coagulate | smoluchowski_dsmc_rings.py:67-95 | keeps the invariant; k_max = max(k_max, k_ij); a raise changes nothing else; the ring store is untouched; the array changes exactly when k_ij <= k_max and the coin falls below k_ij/k_max; an accepted merge performs the merge, drops n_chains by one and advances the clock by the merge increment computed with the n_chains before the update |
| Rings.Cyclize | smoluchowski_dsmc_rings.py:115-136 | keeps the invariant (chain plus ring mass is ntot); r_max = max(r_max, r_rate(mk)); a raise changes nothing else; the array changes exactly when r_rate(mk) <= r_max and the coin falls below r_rate(mk)/r_max; an accepted cyclization appends mk to the ring store, empties slot k, moves one from n_chains to n_rings and advances the clock by (1-Alpha)/(n_chains*r_mk) with the n_chains before the update; the ring store only grows |
| Rings.PicksExist | smoluchowski_dsmc_rings.py:67-70 | while the loop runs, two distinct occupied slots and an occupied slot to cyclize exist |
| Rings.Step | smoluchowski_dsmc_rings.py:54-136 | one loop iteration keeps the invariant; the clock and bounds never decrease; the ring store only grows; n_chains drops by at most one; a bound raise changes nothing else; an iteration that leaves the array unchanged leaves the clock unchanged; below p_coag the array changes exactly when the merge passes its thinning test, and at or above it r_max is positive and the array changes exactly when the cyclization passes its test (coin below r_rate(mk)/r_max); below p_coag the ring store and r_max are untouched and the array is unchanged or merged at the drawn pair, with the merge increment added to the clock; at or above p_coag r_max is positive, k_max is untouched, and either nothing moves or the drawn chain leaves its slot for the end of the ring store, with the cyclization increment (pre-update n_chains) added to the clock |
| Rings.SingleChainTerminal | smoluchowski_dsmc_rings.py:54 | a state with at most one chain is terminal |
| Rings.Run | smoluchowski_dsmc_rings.py:54 | every run keeps the invariant, with a monotone clock and bounds, a growing ring store and a non-increasing chain count; a stopped guard returns the state unchanged |
| Rings.NoRingsWithoutPrefactor | smoluchowski_dsmc_rings.py:26-58 | with glob_pref = 0, r_max0 = 0 makes p_coag = 1, so every run from a ring-free state with r_max = 0 keeps r_max at 0 and never forms a ring |
| Rings.TwoMonomersHalt | smoluchowski_dsmc_rings.py:54-95 | starting from two monomers, any accepted event leaves a single chain and the loop stops |

## Left out

- Random number generation. `random.choice`, `random.rand` and the seed become arguments. The model does not state the uniformity of the choices, the partner-resampling loop or the statistical correctness of thinning.
- File and console I/O: `mkdir`, the output files, `savetxt`, `print` and the `input()` prompts of the ring script. Their values become `Config` fields.
- Output-only float statistics: `mean_mass`, `mean_chain_mass`, `mean_ring_mass` and `reac_extent`.
- The `step` and `hist_count` counters, and the every-`nevery_hist`-steps cadence of the histogram dump. These only drive output. The histogram contents are modelled by `Population.Histogram`.
- IEEE float behaviour. Rates, bounds, probabilities and the clock are exact reals. Rounding in the quotients `k_ij/k_max` and `p_coag`, and in the `waiting_time` accumulated over many small increments, is not modelled. Increments far below the clock's precision are lost in floating point but count here.
- Rings.KRate: states only positivity. `sqrt` is a positive `Config` parameter (`sqrtOf`), so no bound on the kernel is claimed.
- Rings.RRate: states only the sign: non-negative, positive exactly when `glob_pref` is. `mk**-1.5` is a positive `Config` parameter (`powOf`).
- Rings.Init: does not claim that `k_max0` and `r_max0` bound the true rates. In general they do not. `k_rate(1,9) = (1+3)*(1+1/9) ≈ 4.44 > 4 = k_max0`, and for `glob_pref > 0`, `r_rate(1) = glob_pref > r_max0 = glob_pref*0.5`. Only with `glob_pref = 0` does `r_max0 = 0` bound `r_rate`.
- Fragmentation.SplitRate: states only non-negativity. No bound on `(mk-1)*f_m1m2` is claimed, since it can exceed the initial `f_max`.
- Fragmentation.Step: requires `n_mol >= 2`, because below that the denominator `n_mol*(n_mol-1)*density*k_max` of `p_coag` is zero.
- Fragmentation.Run: reports `DivisionByZero` for a running state with fewer than two molecules and stops there. The script behaves in two ways. While `f_max` is still the plain float of lines 25 and 37, it stops with a `ZeroDivisionError`. Once line 124 has raised `f_max`, it is a numpy float, because `mk-1` is a numpy integer. The quotient is then infinite, `p_coag` is 0, and the script keeps attempting to fragment the single molecule. The model does not follow that continuation.
- Rings.Cyclize: requires `r_max > 0`. The script reaches cyclization only when the channel coin is at least `p_coag`, which by `Rings.PCoag` is below 1 only when `r_max > 0`. With `glob_pref = 0` the channel is never entered.
- Rings.WellFormed and Fragmentation.WellFormed assume `density > 0` and `0 <= Alpha <= 1`. The ring script additionally needs `glob_pref >= 0`, and `glob_pref = 0` is allowed. The comments at smoluchowski_dsmc_frag.py:19 and smoluchowski_dsmc_rings.py:27 ask for the `Alpha` range. The density range is the model's own assumption: no comment states it, but with `density <= 0` the `p_coag` and merge-time formulas divide by zero or change sign. Neither script checks these ranges; the fragmentation script checks only `K_d`.
- Counting conventions. The scripts count molecules with `masses!=0` and draw them with `masses>0`. The model uses `> 0` throughout, which is the same on the non-negative arrays the invariant guarantees.
- The fragment's destination slot. The script draws it from `where(masses==0)` after writing `m1` into slot k. The model takes any slot that was empty before the write. The two sets are equal, because slot k stays occupied.

=== FILE: fragmentation.dfy ===
/**
 * One step, and the driver loop, of the coagulation-fragmentation
 * simulation (smoluchowski_dsmc_frag.py). Molecules merge pairwise with
 * rate `1/mi + 1/mj` and a molecule of mass `mk` splits at a chosen point
 * into `m1 + m2` with rate `0.5*K_d*(1/m1 + 1/m2)`, weighted by the `mk-1`
 * possible split points. The random draws of the script are explicit
 * arguments.
 */
module Fragmentation {
  import opened Results
  import opened Population
  import opened Thinning

  /** The script's fixed parameters. */
  datatype Config = Config(ntot: nat, kd: real, density: real, alpha: real, timeMax: real)

  datatype ConfigError = DissociationConstantOutOfRange

  /** The script's `K_d` check: it stops before simulating unless `0 <= K_d <= 1`. */
  function Configure(ntot: nat, kd: real, density: real, alpha: real, timeMax: real): (r: Result<Config, ConfigError>)
    ensures r.Success? <==> 0.0 <= kd <= 1.0
    ensures r.Success? ==> r.value.ntot == ntot && r.value.kd == kd && r.value.density == density
                           && r.value.alpha == alpha && r.value.timeMax == timeMax
    ensures r.Success? ==> (WellFormed(r.value) <==> density > 0.0 && 0.0 <= alpha <= 1.0)
  {
    if kd < 0.0 || kd > 1.0 then Failure(DissociationConstantOutOfRange)
    else Success(Config(ntot, kd, density, alpha, timeMax))
  }

  /** Parameter ranges: `Alpha` in [0,1] as the script's comment asks, and a positive density so the rate formulas are defined. */
  predicate WellFormed(c: Config) {
    0.0 <= c.kd <= 1.0 && c.density > 0.0 && 0.0 <= c.alpha <= 1.0
  }

  /** The constants written into the script. */
  function Defaults(): Config {
    Config(10000, 0.001, 0.1, 1.0, 10000.0)
  }

  lemma DefaultsAccepted()
    ensures Configure(10000, 0.001, 0.1, 1.0, 10000.0) == Success(Defaults())
    ensures WellFormed(Defaults())
  {
  }

  // ----- Rates -----

  /** Initial coagulation bound `k_max0`. */
  const KMax0: real := 2.0

  /** `1/x` of a mass lies in (0, 1] and reaches 1 only for a monomer. */
  lemma InverseAtMostOne(x: real)
    requires x >= 1.0
    ensures 0.0 < 1.0 / x <= 1.0
    ensures 1.0 / x == 1.0 <==> x == 1.0
  {
  }

  /**
   * Coagulation rate `k_rate(mi, mj) = 1/mi + 1/mj`: for positive masses it
   * lies in (0, 2], so `k_max0` bounds it, and only two monomers reach 2.
   */
  function KRate(mi: int, mj: int): (k: real)
    requires mi >= 1 && mj >= 1
    ensures 0.0 < k <= KMax0
    ensures k == KMax0 <==> mi == 1 && mj == 1
  {
    InverseAtMostOne(mi as real);
    InverseAtMostOne(mj as real);
    1.0 / (mi as real) + 1.0 / (mj as real)
  }

  /** Initial fragmentation bound `f_max0 = 0.5*K_d*k_max0`. */
  function FMax0(c: Config): real {
    0.5 * c.kd * KMax0
  }

  /** Fragmentation rate `f_m1m2 = 0.5*K_d*k_rate(m1, m2)` respecting detailed balance. */
  function FRate(c: Config, m1: int, m2: int): (f: real)
    requires WellFormed(c) && m1 >= 1 && m2 >= 1
    ensures 0.0 <= f <= c.kd
    ensures f > 0.0 <==> c.kd > 0.0
  {
    0.5 * c.kd * KRate(m1, m2)
  }

  /** The rate compared with `f_max`: `(mk-1)*f_m1m2`. */
  function SplitRate(c: Config, mk: int, m1: int): (f: real)
    requires WellFormed(c) && 1 <= m1 < mk
    ensures f >= 0.0
  {
    ProductNonNeg((mk - 1) as real, FRate(c, m1, mk - m1));
    (mk - 1) as real * FRate(c, m1, mk - m1)
  }

  /** The split point `m1 = 1 + int(u*(mk-1))` for a uniform draw `u` in [0, 1). */
  function SplitPoint(mk: int, u: real): (m1: int)
    requires mk >= 2 && 0.0 <= u < 1.0
    ensures 1 <= m1 <= mk - 1
  {
    var x := u * (mk - 1) as real;
    ScaledDraw(u, (mk - 1) as real);
    1 + x.Floor
  }

  // ----- State -----

  /** Masses, incremental counters, the two rate bounds and the clock. */
  datatype State = State(masses: seq<int>, nMol: int, nPoly: int, kMax: real, fMax: real, time: real)

  /**
   * Mass `ntot` conserved in `ntot` slots, counters equal to a recount,
   * bounds never below their initial values, non-negative clock.
   */
  predicate Inv(s: State, c: Config) {
    && |s.masses| == c.ntot
    && AllNonNeg(s.masses)
    && Sum(s.masses) == c.ntot
    && s.nMol == Count(s.masses, Occupied)
    && s.nPoly == Count(s.masses, Polymer)
    && s.kMax >= KMax0
    && s.fMax >= FMax0(c)
    && s.time >= 0.0
  }

  /** All monomers, counters from a full recount, initial bounds, clock at zero. */
  function Init(c: Config): (s: State)
    requires WellFormed(c)
    ensures Inv(s, c)
    ensures s.nMol == c.ntot && s.nPoly == 0 && s.time == 0.0
  {
    OnesCounts(c.ntot);
    var m := Ones(c.ntot);
    State(m, Count(m, Occupied), Count(m, Polymer), KMax0, FMax0(c), 0.0)
  }

  /** Under the invariant every mass fits below `ntot`, so the script's `int32` array cannot overflow. */
  lemma MassesBounded(s: State, c: Config, t: int)
    requires Inv(s, c) && 0 <= t < |s.masses|
    ensures 0 <= s.masses[t] <= c.ntot
  {
    SlotAtMostSum(s.masses, t);
  }

  // ----- Counter rules -----

  /**
   * The script's `n_poly` update after merging masses `mi` and `mj`: the
   * merged molecule is always a polymer, and the polymers among the two
   * inputs are gone.
   */
  function PolyAfterMerge(nPoly: int, mi: int, mj: int): (r: int)
    requires mi >= 1 && mj >= 1
    ensures r == nPoly + Ind(mi + mj > 1) - Ind(mi > 1) - Ind(mj > 1)
  {
    if mi == 1 && mj == 1 then nPoly + 1
    else if mi > 1 && mj > 1 then nPoly - 1
    else nPoly
  }

  /**
   * The script's `n_poly` update after splitting into `m1` and `m2`: the
   * split polymer is gone and each fragment counts if it is a polymer.
   */
  function PolyAfterSplit(nPoly: int, m1: int, m2: int): (r: int)
    requires m1 >= 1 && m2 >= 1
    ensures r == nPoly - Ind(m1 + m2 > 1) + Ind(m1 > 1) + Ind(m2 > 1)
  {
    if m1 == 1 && m2 == 1 then nPoly - 1
    else if m1 > 1 && m2 > 1 then nPoly + 1
    else nPoly
  }

  /** After a merge, `n_mol - 1` and the `n_poly` rule agree with a full recount. */
  lemma MergeRecount(m: seq<int>, i: int, j: int)
    requires MergePick(m, i, j)
    ensures Count(Merge(m, i, j), Occupied) == Count(m, Occupied) - 1
    ensures Count(Merge(m, i, j), Polymer) == PolyAfterMerge(Count(m, Polymer), m[i], m[j])
  {
    MergeCounts(m, i, j, Occupied);
    MergeCounts(m, i, j, Polymer);
  }

  /** After a split, `n_mol + 1` and the `n_poly` rule agree with a full recount. */
  lemma SplitRecount(m: seq<int>, k: int, m1: int, z: int)
    requires 0 <= k < |m| && 0 <= z < |m| && m[z] == 0 && 1 <= m1 < m[k]
    ensures Count(Split(m, k, m1, z), Occupied) == Count(m, Occupied) + 1
    ensures Count(Split(m, k, m1, z), Polymer) == PolyAfterSplit(Count(m, Polymer), m1, m[k] - m1)
  {
    SplitCounts(m, k, m1, z, Occupied);
    SplitCounts(m, k, m1, z, Polymer);
  }

  /** The two `n_poly` rules undo each other. */
  lemma PolyRulesInverse(nPoly: int, mi: int, mj: int)
    requires mi >= 1 && mj >= 1
    ensures PolyAfterSplit(PolyAfterMerge(nPoly, mi, mj), mj, mi) == nPoly
    ensures PolyAfterMerge(PolyAfterSplit(nPoly, mj, mi), mi, mj) == nPoly
  {
  }

  // ----- Channel choice and clock -----

  /** `p_coag = 1/(1 + ntot*n_poly*f_max / (n_mol*(n_mol-1)*density*k_max))`. */
  function PCoag(s: State, c: Config): (p: real)
    requires c.density > 0.0 && s.nMol >= 2 && s.nPoly >= 0 && s.kMax > 0.0 && s.fMax >= 0.0
    ensures 0.0 < p <= 1.0
    ensures p < 1.0 <==> c.ntot > 0 && s.nPoly > 0 && s.fMax > 0.0
  {
    var n := s.nMol as real;
    var x := c.ntot as real * s.nPoly as real * s.fMax;
    var y := n * (n - 1.0) * c.density * s.kMax;
    TripleProductSign(c.ntot as real, s.nPoly as real, s.fMax);
    PairWeightPos(n, c.density, s.kMax);
    ChannelProbability(x, y)
  }

  /** Clock increment of an accepted split: `2*(1-Alpha)/(n_poly*(mk-1)*f_m1m2)`. */
  function SplitDelay(c: Config, nPoly: int, mk: int, f: real): (dt: real)
    requires WellFormed(c) && nPoly >= 1 && mk >= 2 && f > 0.0
    ensures dt >= 0.0
  {
    TriplePos(nPoly as real, (mk - 1) as real, f);
    2.0 * (1.0 - c.alpha) / (nPoly as real * (mk - 1) as real * f)
  }

  // ----- The two channels -----

  /** The state after an accepted merge of slot `i` into slot `j`, the clock advanced by `dt`. */
  function Merged(s: State, c: Config, i: int, j: int, dt: real): (r: State)
    requires WellFormed(c) && Inv(s, c) && MergePick(s.masses, i, j) && dt >= 0.0
    ensures Inv(r, c)
    ensures r.masses == Merge(s.masses, i, j) && r.nMol == s.nMol - 1
    ensures r.kMax == s.kMax && r.fMax == s.fMax && r.time == s.time + dt
  {
    var m' := Merge(s.masses, i, j);
    MergeRecount(s.masses, i, j);
    assert AllNonNeg(m');
    State(m', s.nMol - 1, PolyAfterMerge(s.nPoly, s.masses[i], s.masses[j]), s.kMax, s.fMax, s.time + dt)
  }

  /**
   * Coagulation attempt on the distinct occupied slots `i` and `j` with
   * acceptance coin `coin`.
   */
  function Coagulate(s: State, c: Config, i: int, j: int, coin: real): (r: State)
    requires WellFormed(c) && Inv(s, c) && s.nMol >= 2
    requires MergePick(s.masses, i, j) && 0.0 <= coin < 1.0
    ensures Inv(r, c)
    ensures r.kMax == s.kMax && r.fMax == s.fMax
    ensures s.time <= r.time
    ensures r.masses != s.masses <==> Accepts(KRate(s.masses[i], s.masses[j]), s.kMax, coin)
    ensures r.masses == s.masses ==> r == s
    ensures r.masses != s.masses ==>
              && r.masses == Merge(s.masses, i, j)
              && r.nMol == s.nMol - 1
              && r.time == s.time + MergeDelay(c.alpha, c.ntot, s.nMol, c.density, KRate(s.masses[i], s.masses[j]))
  {
    var mi := s.masses[i];
    var mj := s.masses[j];
    var kij := KRate(mi, mj);
    match Decide(kij, s.kMax, coin)
    case Raise => s.(kMax := kij)
    case Reject => s
    case Accept =>
      assert Merge(s.masses, i, j)[i] != s.masses[i];
      Merged(s, c, i, j, MergeDelay(c.alpha, c.ntot, s.nMol, c.density, kij))
  }

  /** The coagulation bound `k_max0 = 2` is never exceeded, so its raise branch never fires. */
  lemma CoagulationNeverRaises(s: State, c: Config, i: int, j: int, coin: real)
    requires WellFormed(c) && Inv(s, c) && MergePick(s.masses, i, j) && 0.0 <= coin < 1.0
    ensures Decide(KRate(s.masses[i], s.masses[j]), s.kMax, coin) != Raise
    ensures Max(s.kMax, KRate(s.masses[i], s.masses[j])) == s.kMax
  {
  }

  /** A slot the fragmentation channel may split, and an empty slot for the second fragment. */
  predicate SplitPick(m: seq<int>, k: int, z: int) {
    0 <= k < |m| && m[k] > 1 && 0 <= z < |m| && m[z] == 0
  }

  /** The state after an accepted split of slot `k` at `m1`, the rest going to the empty slot `z`. */
  function Fragmented(s: State, c: Config, k: int, m1: int, z: int, dt: real): (r: State)
    requires WellFormed(c) && Inv(s, c) && SplitPick(s.masses, k, z) && 1 <= m1 < s.masses[k] && dt >= 0.0
    ensures Inv(r, c)
    ensures r.masses == Split(s.masses, k, m1, z) && r.nMol == s.nMol + 1
    ensures r.kMax == s.kMax && r.fMax == s.fMax && r.time == s.time + dt
  {
    var m' := Split(s.masses, k, m1, z);
    SplitRecount(s.masses, k, m1, z);
    assert AllNonNeg(m');
    State(m', s.nMol + 1, PolyAfterSplit(s.nPoly, m1, s.masses[k] - m1), s.kMax, s.fMax, s.time + dt)
  }

  /**
   * Fragmentation attempt on slot `k` with split-point draw `u`, empty
   * destination slot `z` and acceptance coin `coin`.
   */
  function Fragment(s: State, c: Config, k: int, u: real, z: int, coin: real): (r: State)
    requires WellFormed(c) && Inv(s, c) && s.fMax > 0.0
    requires SplitPick(s.masses, k, z) && 0.0 <= u < 1.0 && 0.0 <= coin < 1.0
    ensures Inv(r, c)
    ensures r.fMax == Max(s.fMax, SplitRate(c, s.masses[k], SplitPoint(s.masses[k], u)))
    ensures r.kMax == s.kMax && s.time <= r.time
    ensures r.fMax != s.fMax ==> r == s.(fMax := r.fMax)
    ensures r.masses != s.masses <==> Accepts(SplitRate(c, s.masses[k], SplitPoint(s.masses[k], u)), s.fMax, coin)
    ensures r.masses == s.masses ==> r.nMol == s.nMol && r.nPoly == s.nPoly && r.time == s.time
    ensures r.masses != s.masses ==>
              && r.masses == Split(s.masses, k, SplitPoint(s.masses[k], u), z)
              && r.nMol == s.nMol + 1
              && r.fMax == s.fMax
              && s.nPoly >= 1 && c.kd > 0.0
              && r.time == s.time + SplitDelay(c, s.nPoly, s.masses[k],
                                               FRate(c, SplitPoint(s.masses[k], u), s.masses[k] - SplitPoint(s.masses[k], u)))
  {
    var mk := s.masses[k];
    var m1 := SplitPoint(mk, u);
    var m2 := mk - m1;
    var rate := SplitRate(c, mk, m1);
    var d := Decide(rate, s.fMax, coin);
    match d
    case Raise => s.(fMax := BoundAfter(rate, s.fMax, d))
    case Reject => s
    case Accept =>
      assert s.nPoly >= 1 by { assert Has(Polymer, mk); assert Count(s.masses, Polymer) != 0; }
      assert FRate(c, m1, m2) > 0.0;
      Fragmented(s, c, k, m1, z, SplitDelay(c, s.nPoly, mk, FRate(c, m1, m2)))
  }

  // ----- One loop iteration -----

  /** The random numbers one loop iteration consumes. */
  datatype Draws = Draws(channel: real, first: int, second: int, piece: int, split: real, slot: int, accept: real)

  /**
   * Draws the script could have produced in state `s`: coins in [0, 1),
   * two distinct occupied slots for a coagulation attempt, a polymer and an
   * empty slot for a fragmentation attempt.
   */
  predicate DrawsOk(s: State, c: Config, d: Draws)
    requires WellFormed(c) && Inv(s, c) && s.nMol >= 2
  {
    && 0.0 <= d.channel < 1.0 && 0.0 <= d.split < 1.0 && 0.0 <= d.accept < 1.0
    && (d.channel < PCoag(s, c) ==> MergePick(s.masses, d.first, d.second))
    && (d.channel >= PCoag(s, c) && s.nPoly > 0 ==> SplitPick(s.masses, d.piece, d.slot))
  }

  /** Legal slot draws exist for both channels whenever they are eligible. */
  lemma PicksExist(s: State, c: Config)
    requires Inv(s, c)
    ensures s.nMol >= 2 ==> exists i, j :: MergePick(s.masses, i, j)
    ensures s.nPoly > 0 ==> exists k, z :: SplitPick(s.masses, k, z)
  {
    if s.nMol >= 2 {
      TwoOccupied(s.masses);
      var i, j :| 0 <= i < |s.masses| && 0 <= j < |s.masses| && i != j && s.masses[i] > 0 && s.masses[j] > 0;
      assert MergePick(s.masses, i, j);
    }
    if s.nPoly > 0 {
      EmptySlotExists(s.masses);
      var z :| 0 <= z < |s.masses| && s.masses[z] == 0;
      var k :| 0 <= k < |s.masses| && Has(Polymer, s.masses[k]);
      assert SplitPick(s.masses, k, z);
    }
  }

  /** One iteration of the loop body. */
  function Step(s: State, c: Config, d: Draws): (r: State)
    requires WellFormed(c) && Inv(s, c) && s.nMol >= 2 && DrawsOk(s, c, d)
    ensures Inv(r, c)
    ensures s.time <= r.time && s.kMax <= r.kMax && s.fMax <= r.fMax
    ensures r.kMax == s.kMax
    ensures r.fMax != s.fMax ==> r == s.(fMax := r.fMax)
    ensures s.nPoly == 0 ==> d.channel < PCoag(s, c)
    ensures r.masses == s.masses ==> r.time == s.time
    ensures d.channel < PCoag(s, c) ==>
              (r.masses != s.masses <==> Accepts(KRate(s.masses[d.first], s.masses[d.second]), s.kMax, d.accept))
    ensures d.channel >= PCoag(s, c) ==>
              && s.fMax > 0.0
              && (r.masses != s.masses <==>
                    Accepts(SplitRate(c, s.masses[d.piece], SplitPoint(s.masses[d.piece], d.split)), s.fMax, d.accept))
    ensures d.channel < PCoag(s, c) ==>
              && r.fMax == s.fMax
              && (r.masses == s.masses
                  || (&& r.masses == Merge(s.masses, d.first, d.second)
                      && r.time == s.time + MergeDelay(c.alpha, c.ntot, s.nMol, c.density,
                                                       KRate(s.masses[d.first], s.masses[d.second]))))
    ensures d.channel >= PCoag(s, c) ==>
              && s.nPoly > 0
              && (r.masses == s.masses
                  || (&& r.masses == Split(s.masses, d.piece, SplitPoint(s.masses[d.piece], d.split), d.slot)
                      && c.kd > 0.0
                      && r.time == s.time + SplitDelay(c, s.nPoly, s.masses[d.piece],
                                                       FRate(c, SplitPoint(s.masses[d.piece], d.split),
                                                             s.masses[d.piece] - SplitPoint(s.masses[d.piece], d.split)))))
  {
    if d.channel < PCoag(s, c) then Coagulate(s, c, d.first, d.second, d.accept)
    else if s.nPoly > 0 then Fragment(s, c, d.piece, d.split, d.slot, d.accept)
    else s
  }

  // ----- Driver -----

  /** The loop guard `waiting_time < time_max`. */
  predicate Running(s: State, c: Config) {
    s.time < c.timeMax
  }

  /** How a run over a finite supply of draws ends. */
  datatype RunResult =
    | Stopped(final: State)       // the guard failed or the draws ran out
    | DivisionByZero(at: State)   // `p_coag` divides by zero: one molecule (or none) left
    | IllegalDraws                // some draw was not one the script could make

  /** The loop, fed one `Draws` per iteration. */
  function Run(c: Config, s: State, ds: seq<Draws>): (r: RunResult)
    requires WellFormed(c) && Inv(s, c)
    decreases |ds|
    ensures r.Stopped? ==> Inv(r.final, c) && s.time <= r.final.time
                            && s.kMax <= r.final.kMax && s.fMax <= r.final.fMax
    ensures r.DivisionByZero? ==> Inv(r.at, c) && Running(r.at, c) && r.at.nMol < 2 && s.time <= r.at.time
    ensures !Running(s, c) ==> r == Stopped(s)
    ensures Running(s, c) && |ds| > 0 && s.nMol < 2 ==> r == DivisionByZero(s)
  {
    if !Running(s, c) || |ds| == 0 then Stopped(s)
    else if s.nMol < 2 then DivisionByZero(s)
    else if !DrawsOk(s, c, ds[0]) then IllegalDraws
    else Run(c, Step(s, c, ds[0]), ds[1..])
  }

  /** With `time_max <= 0` the loop never runs and the all-monomer array is returned untouched. */
  lemma ZeroHorizon(c: Config, ds: seq<Draws>)
    requires WellFormed(c) && c.timeMax <= 0.0
    ensures Run(c, Init(c), ds) == Stopped(Init(c))
    ensures Init(c).masses == Ones(c.ntot)
  {
  }

  /**
   * Detailed-balance scenario: merging two monomers and then splitting the
   * dimer back into the vacated slot (the only split point is 1) restores
   * both the array and `n_poly`.
   */
  lemma MonomerMergeThenSplit(m: seq<int>, i: int, j: int, u: real)
    requires MergePick(m, i, j) && m[i] == 1 && m[j] == 1 && 0.0 <= u < 1.0
    ensures SplitPoint(Merge(m, i, j)[j], u) == 1
    ensures Split(Merge(m, i, j), j, SplitPoint(Merge(m, i, j)[j], u), i) == m
    ensures PolyAfterSplit(PolyAfterMerge(Count(m, Polymer), 1, 1), 1, 1) == Count(m, Polymer)
  {
    SplitUndoesMerge(m, i, j);
  }
}

=== FILE: population.dfy ===
/**
 * The population array shared by both simulation scripts: a fixed-length
 * sequence of molecule masses in which 0 marks an empty slot. This module
 * holds the recounts the scripts compare their incremental counters
 * against, the mass sum, the merge and split operations on the array, and
 * the histogram of occupied masses.
 */
module Population {

  /** The slot classes the scripts filter on: `masses>0`, `masses>1`, `masses==0`. */
  datatype Kind = Occupied | Polymer | Empty

  predicate Has(k: Kind, x: int) {
    match k
    case Occupied => x > 0
    case Polymer => x > 1
    case Empty => x == 0
  }

  /** 1 when `b` holds, 0 otherwise. */
  function Ind(b: bool): nat {
    if b then 1 else 0
  }

  predicate AllNonNeg(m: seq<int>) {
    forall t :: 0 <= t < |m| ==> m[t] >= 0
  }

  predicate AllPositive(m: seq<int>) {
    forall t :: 0 <= t < |m| ==> m[t] >= 1
  }

  /** Full recount of the slots of class `k`, as `len(masses[masses>1])` does. */
  function Count(m: seq<int>, k: Kind): (r: nat)
    ensures r <= |m|
    ensures r == 0 <==> forall t :: 0 <= t < |m| ==> !Has(k, m[t])
  {
    if |m| == 0 then 0
    else
      assert forall t :: 0 <= t < |m| - 1 ==> m[1..][t] == m[t + 1];
      Ind(Has(k, m[0])) + Count(m[1..], k)
  }

  /** Reference definition of a recount: the set of slot indices of class `k`. */
  function SlotsOf(m: seq<int>, k: Kind): set<int> {
    set t | 0 <= t < |m| && Has(k, m[t])
  }

  lemma {:induction false} CountSnoc(m: seq<int>, k: Kind)
    requires |m| > 0
    ensures Count(m, k) == Count(m[..|m| - 1], k) + Ind(Has(k, m[|m| - 1]))
  {
    if |m| > 1 {
      assert m[1..][..|m[1..]| - 1] == m[..|m| - 1][1..];
      CountSnoc(m[1..], k);
    }
  }

  /** The incremental recount agrees with the size of the reference set. */
  lemma {:induction false} CountIsCardinality(m: seq<int>, k: Kind)
    ensures Count(m, k) == |SlotsOf(m, k)|
  {
    if |m| > 0 {
      var n := |m| - 1;
      var prefix := m[..n];
      CountSnoc(m, k);
      CountIsCardinality(prefix, k);
      if Has(k, m[n]) {
        assert SlotsOf(m, k) == SlotsOf(prefix, k) + {n};
        assert n !in SlotsOf(prefix, k);
      } else {
        assert SlotsOf(m, k) == SlotsOf(prefix, k);
      }
    } else {
      assert SlotsOf(m, k) == {};
    }
  }

  /** Total mass held in the slots. */
  function Sum(m: seq<int>): int {
    if |m| == 0 then 0 else m[0] + Sum(m[1..])
  }

  /** `n` monomers: the scripts' initial array `zeros(ntot)+1`. */
  function Ones(n: nat): (r: seq<int>)
    ensures |r| == n
    ensures forall t :: 0 <= t < n ==> r[t] == 1
  {
    if n == 0 then [] else [1] + Ones(n - 1)
  }

  /** The all-monomer array has mass `n`, `n` molecules and no polymer. */
  lemma {:induction false} OnesCounts(n: nat)
    ensures Sum(Ones(n)) == n
    ensures Count(Ones(n), Occupied) == n
    ensures Count(Ones(n), Polymer) == 0
  {
    if n > 0 {
      assert Ones(n)[1..] == Ones(n - 1);
      OnesCounts(n - 1);
    }
  }

  lemma {:induction false} SumUpdate(m: seq<int>, i: int, x: int)
    requires 0 <= i < |m|
    ensures Sum(m[i := x]) == Sum(m) - m[i] + x
  {
    if i == 0 {
      assert m[i := x][1..] == m[1..];
    } else {
      assert m[i := x][1..] == m[1..][i - 1 := x];
      SumUpdate(m[1..], i - 1, x);
    }
  }

  lemma {:induction false} CountUpdate(m: seq<int>, i: int, x: int, k: Kind)
    requires 0 <= i < |m|
    ensures Count(m[i := x], k) == Count(m, k) - Ind(Has(k, m[i])) + Ind(Has(k, x))
  {
    if i == 0 {
      assert m[i := x][1..] == m[1..];
    } else {
      assert m[i := x][1..] == m[1..][i - 1 := x];
      CountUpdate(m[1..], i - 1, x, k);
    }
  }

  lemma {:induction false} SumAppend(a: seq<int>, x: int)
    ensures Sum(a + [x]) == Sum(a) + x
  {
    if |a| > 0 {
      assert (a + [x])[1..] == a[1..] + [x];
      SumAppend(a[1..], x);
    }
  }

  /** A slot of a non-negative array never holds more than the whole sum. */
  lemma {:induction false} SlotAtMostSum(m: seq<int>, i: int)
    requires AllNonNeg(m) && 0 <= i < |m|
    ensures 0 <= m[i] <= Sum(m)
  {
    assert AllNonNeg(m[1..]);
    if i > 0 {
      SlotAtMostSum(m[1..], i - 1);
    } else {
      SumNonNeg(m[1..]);
    }
  }

  lemma {:induction false} SumNonNeg(m: seq<int>)
    requires AllNonNeg(m)
    ensures Sum(m) >= 0
  {
    if |m| > 0 {
      assert AllNonNeg(m[1..]);
      SumNonNeg(m[1..]);
    }
  }

  /** In a non-negative array every slot is either occupied or empty. */
  lemma {:induction false} OccupiedPlusEmpty(m: seq<int>)
    requires AllNonNeg(m)
    ensures Count(m, Occupied) + Count(m, Empty) == |m|
  {
    if |m| > 0 {
      assert AllNonNeg(m[1..]);
      OccupiedPlusEmpty(m[1..]);
    }
  }

  /**
   * Each molecule weighs at least one monomer and each polymer at least
   * two, so the mass is at least the number of molecules plus the number
   * of polymers.
   */
  lemma {:induction false} SumAtLeastCounts(m: seq<int>)
    requires AllNonNeg(m)
    ensures Sum(m) >= Count(m, Occupied) + Count(m, Polymer)
  {
    if |m| > 0 {
      assert AllNonNeg(m[1..]);
      SumAtLeastCounts(m[1..]);
    }
  }

  /**
   * Pigeonhole: `n` slots holding total mass `n`, one of them a polymer,
   * must leave some slot empty. This is what makes the fragment's
   * destination slot `where(masses==0)` non-empty.
   */
  lemma EmptySlotExists(m: seq<int>)
    requires AllNonNeg(m) && Sum(m) == |m|
    requires Count(m, Polymer) > 0
    ensures Count(m, Empty) > 0
    ensures exists z :: 0 <= z < |m| && m[z] == 0
  {
    SumAtLeastCounts(m);
    OccupiedPlusEmpty(m);
  }

  /** At least two occupied slots give two distinct occupied indices. */
  lemma {:induction false} TwoOccupied(m: seq<int>)
    requires Count(m, Occupied) >= 2
    ensures exists i, j :: 0 <= i < |m| && 0 <= j < |m| && i != j && m[i] > 0 && m[j] > 0
  {
    var tail := m[1..];
    if m[0] > 0 {
      assert Count(tail, Occupied) >= 1;
      var j :| 0 <= j < |tail| && tail[j] > 0;
      assert m[j + 1] > 0;
    } else {
      TwoOccupied(tail);
      var i, j :| 0 <= i < |tail| && 0 <= j < |tail| && i != j && tail[i] > 0 && tail[j] > 0;
      assert m[i + 1] > 0 && m[j + 1] > 0;
    }
  }

  /** Two distinct occupied slots, as the merge channel draws them. */
  predicate MergePick(m: seq<int>, i: int, j: int) {
    0 <= i < |m| && 0 <= j < |m| && i != j && m[i] > 0 && m[j] > 0
  }

  /** Merge the molecule in slot `i` into the one in slot `j`. */
  function Merge(m: seq<int>, i: int, j: int): (r: seq<int>)
    requires MergePick(m, i, j)
    ensures |r| == |m|
    ensures r[j] == m[i] + m[j] && r[i] == 0
    ensures forall t :: 0 <= t < |m| && t != i && t != j ==> r[t] == m[t]
    ensures Sum(r) == Sum(m)
  {
    SumUpdate(m, j, m[i] + m[j]);
    SumUpdate(m[j := m[i] + m[j]], i, 0);
    m[j := m[i] + m[j]][i := 0]
  }

  /**
   * Split the molecule in slot `k` into `m1` monomers kept in slot `k`
   * and the rest written into the empty slot `z`.
   */
  function Split(m: seq<int>, k: int, m1: int, z: int): (r: seq<int>)
    requires 0 <= k < |m| && 0 <= z < |m| && m[z] == 0 && 1 <= m1 < m[k]
    ensures |r| == |m|
    ensures r[k] == m1 && r[z] == m[k] - m1 && r[z] >= 1
    ensures forall t :: 0 <= t < |m| && t != k && t != z ==> r[t] == m[t]
    ensures Sum(r) == Sum(m)
  {
    SumUpdate(m, k, m1);
    SumUpdate(m[k := m1], z, m[k] - m1);
    m[k := m1][z := m[k] - m1]
  }

  /** Merge then re-split at the old boundary restores the array. */
  lemma SplitUndoesMerge(m: seq<int>, i: int, j: int)
    requires MergePick(m, i, j)
    ensures Split(Merge(m, i, j), j, m[j], i) == m
  {
  }

  /** Split then merge of the two fragments restores the array. */
  lemma MergeUndoesSplit(m: seq<int>, k: int, m1: int, z: int)
    requires 0 <= k < |m| && 0 <= z < |m| && m[z] == 0 && 1 <= m1 < m[k]
    ensures MergePick(Split(m, k, m1, z), z, k)
    ensures Merge(Split(m, k, m1, z), z, k) == m
  {
  }

  /** Merge changes the recounts by the contributions of the three slot values. */
  lemma MergeCounts(m: seq<int>, i: int, j: int, k: Kind)
    requires MergePick(m, i, j)
    ensures Count(Merge(m, i, j), k)
         == Count(m, k) - Ind(Has(k, m[i])) - Ind(Has(k, m[j])) + Ind(Has(k, m[i] + m[j])) + Ind(Has(k, 0))
  {
    CountUpdate(m, j, m[i] + m[j], k);
    CountUpdate(m[j := m[i] + m[j]], i, 0, k);
  }

  /** Split changes the recounts by the contributions of the fragment values. */
  lemma SplitCounts(m: seq<int>, k: int, m1: int, z: int, kind: Kind)
    requires 0 <= k < |m| && 0 <= z < |m| && m[z] == 0 && 1 <= m1 < m[k]
    ensures Count(Split(m, k, m1, z), kind)
         == Count(m, kind) - Ind(Has(kind, m[k])) - Ind(Has(kind, 0)) + Ind(Has(kind, m1)) + Ind(Has(kind, m[k] - m1))
  {
    CountUpdate(m, k, m1, kind);
    CountUpdate(m[k := m1], z, m[k] - m1, kind);
  }

  /** Clearing slot `k` removes its mass from the sum and its molecule from the recount. */
  lemma VacateCounts(m: seq<int>, k: int)
    requires 0 <= k < |m| && m[k] > 0
    ensures Sum(m[k := 0]) == Sum(m) - m[k]
    ensures Count(m[k := 0], Occupied) == Count(m, Occupied) - 1
  {
    SumUpdate(m, k, 0);
    CountUpdate(m, k, 0, Occupied);
  }

  // ----- Histogram of occupied masses -----

  /** Largest slot value (0 for an empty array). */
  function Peak(m: seq<int>): (r: int)
    ensures forall t :: 0 <= t < |m| ==> m[t] <= r
  {
    if |m| == 0 then 0
    else
      var rest := Peak(m[1..]);
      assert forall t :: 1 <= t < |m| ==> m[t] == m[1..][t - 1];
      if m[0] >= rest then m[0] else rest
  }

  /** Smallest slot value (0 for an empty array). */
  function Trough(m: seq<int>): (r: int)
    ensures forall t :: 0 <= t < |m| ==> r <= m[t]
  {
    if |m| == 0 then 0
    else
      var rest := Trough(m[1..]);
      assert forall t :: 1 <= t < |m| ==> m[t] == m[1..][t - 1];
      if m[0] <= rest then m[0] else rest
  }

  /** One histogram row: a mass and how many slots hold it. */
  datatype Bin = Bin(mass: int, occurrences: nat)

  /** The row a histogram holds for mass `x`. */
  function BinOf(m: seq<int>, x: int): Bin {
    Bin(x, multiset(m)[x])
  }

  /** Rows for the non-zero masses in `[lo, hi]`, in increasing order of mass. */
  function HistogramFrom(m: seq<int>, lo: int, hi: int): (h: seq<Bin>)
    decreases hi - lo + 1
    ensures forall t :: 0 <= t < |h| ==> lo <= h[t].mass <= hi
    ensures forall t :: 0 <= t < |h| ==> h[t].mass != 0 && h[t].mass in multiset(m) && h[t] == BinOf(m, h[t].mass)
    ensures forall t, u :: 0 <= t < u < |h| ==> h[t].mass < h[u].mass
    ensures forall x :: lo <= x <= hi && x != 0 && x in multiset(m) ==> BinOf(m, x) in h
  {
    if lo > hi then []
    else if lo != 0 && lo in multiset(m) then [BinOf(m, lo)] + HistogramFrom(m, lo + 1, hi)
    else HistogramFrom(m, lo + 1, hi)
  }

  /**
   * The histogram the scripts save: each distinct non-zero mass once, in
   * increasing order, with its number of occurrences.
   */
  function Histogram(m: seq<int>): (h: seq<Bin>)
    ensures forall t :: 0 <= t < |h| ==> h[t].mass != 0 && h[t].mass in multiset(m) && h[t] == BinOf(m, h[t].mass)
    ensures forall t, u :: 0 <= t < u < |h| ==> h[t].mass < h[u].mass
    ensures forall t :: 0 <= t < |m| && m[t] != 0 ==> BinOf(m, m[t]) in h
  {
    var lo := Trough(m);
    var hi := Peak(m);
    assert forall t :: 0 <= t < |m| ==> m[t] in multiset(m);
    HistogramFrom(m, lo, hi)
  }
}

=== FILE: results.dfy ===
/** Failure-carrying values shared by the two simulation variants. */
module Results {

  /** A value that may be absent. */
  datatype Option<+T> = None | Some(value: T)

  /** Either a value or the reason none could be produced. */
  datatype Result<+T, +E> = Success(value: T) | Failure(error: E)
}

=== FILE: rings.dfy ===
/**
 * One step, and the driver loop, of the irreversible coagulation
 * simulation with ring formation (smoluchowski_dsmc_rings.py). Chains
 * merge pairwise with rate `(sqrt(mi)+sqrt(mj))*(1/mi+1/mj)` and a chain of
 * mass `mk` closes into a ring with rate `pref*mk^(-1.5)`; a ring leaves
 * the population array for good. The square root and the power are
 * parameters of the configuration, known only to be positive on masses of
 * at least one monomer.
 */
module Rings {
  import opened Results
  import opened Population
  import opened Thinning

  /**
   * The script's parameters: `ntot`, `density` and `pref` are read at
   * start-up; `sqrtOf(m)` stands for `sqrt(m)` and `powOf(m)` for `m**-1.5`.
   */
  datatype Config = Config(
    ntot: nat, density: real, alpha: real, timeMax: real, pref: real,
    sqrtOf: int -> real, powOf: int -> real)

  /**
   * Parameter ranges: `Alpha` in [0,1] as the script's comment asks, a
   * positive density, a non-negative prefactor (zero switches rings off),
   * and kernels positive on masses of at least one monomer.
   */
  ghost predicate WellFormed(c: Config) {
    && c.density > 0.0 && 0.0 <= c.alpha <= 1.0 && c.pref >= 0.0
    && (forall m: int :: m >= 1 ==> c.sqrtOf(m) > 0.0)
    && (forall m: int :: m >= 1 ==> c.powOf(m) > 0.0)
  }

  // ----- Rates -----

  /** Coagulation rate, the de Gennes kernel for Gaussian chains. */
  function KRate(c: Config, mi: int, mj: int): (k: real)
    requires WellFormed(c) && mi >= 1 && mj >= 1
    ensures k > 0.0
  {
    ProductPos(c.sqrtOf(mi) + c.sqrtOf(mj), 1.0 / (mi as real) + 1.0 / (mj as real));
    (c.sqrtOf(mi) + c.sqrtOf(mj)) * (1.0 / (mi as real) + 1.0 / (mj as real))
  }

  /** Cyclization rate `pref * m^(-1.5)`; it vanishes only when `pref` does. */
  function RRate(c: Config, m: int): (r: real)
    requires WellFormed(c) && m >= 1
    ensures r >= 0.0
    ensures r > 0.0 <==> c.pref > 0.0
  {
    assert c.pref > 0.0 ==> c.pref * c.powOf(m) > 0.0 by {
      if c.pref > 0.0 { ProductPos(c.pref, c.powOf(m)); }
    }
    c.pref * c.powOf(m)
  }

  /** Initial bounds `k_max0 = 4` and `r_max0 = pref*0.5`. */
  const KMax0: real := 4.0

  function RMax0(c: Config): real {
    c.pref * 0.5
  }

  // ----- State -----

  /** Chain masses, ring masses, counters, the two rate bounds and the clock. */
  datatype State = State(
    masses: seq<int>, rings: seq<int>, nChains: int, nRings: int,
    kMax: real, rMax: real, time: real)

  /**
   * Chain mass plus ring mass is `ntot`, every stored mass is at least one
   * monomer, the counters equal a recount, bounds never below their
   * initial values, non-negative clock.
   */
  predicate Inv(s: State, c: Config) {
    && |s.masses| == c.ntot
    && AllNonNeg(s.masses)
    && AllPositive(s.rings)
    && Sum(s.masses) + Sum(s.rings) == c.ntot
    && s.nChains == Count(s.masses, Occupied)
    && s.nRings == |s.rings|
    && s.kMax >= KMax0
    && s.rMax >= RMax0(c)
    && s.time >= 0.0
  }

  /** All monomers, no rings, initial bounds, clock at zero. */
  function Init(c: Config): (s: State)
    requires WellFormed(c)
    ensures Inv(s, c)
    ensures s.nChains == c.ntot && s.nRings == 0 && s.time == 0.0
  {
    OnesCounts(c.ntot);
    var m := Ones(c.ntot);
    State(m, [], Count(m, Occupied), 0, KMax0, RMax0(c), 0.0)
  }

  // ----- Channel choice and clock -----

  /** `p_coag = 1/(1 + 2*ntot*r_max / ((n_chains-1)*density*k_max))`. */
  function PCoag(s: State, c: Config): (p: real)
    requires c.density > 0.0 && s.nChains >= 2 && s.kMax > 0.0 && s.rMax >= 0.0
    ensures 0.0 < p <= 1.0
    ensures p < 1.0 <==> c.ntot > 0 && s.rMax > 0.0
  {
    var x := 2.0 * c.ntot as real * s.rMax;
    var y := (s.nChains - 1) as real * c.density * s.kMax;
    TripleProductSign(2.0, c.ntot as real, s.rMax);
    TriplePos((s.nChains - 1) as real, c.density, s.kMax);
    ChannelProbability(x, y)
  }

  /** Clock increment of an accepted cyclization: `(1-Alpha)/(n_chains*r_mk)`. */
  function RingDelay(c: Config, nChains: int, rmk: real): (dt: real)
    requires WellFormed(c) && nChains >= 1 && rmk > 0.0
    ensures dt >= 0.0
  {
    ProductPos(nChains as real, rmk);
    (1.0 - c.alpha) / (nChains as real * rmk)
  }

  // ----- The two channels -----

  /** The state after an accepted merge of slot `i` into slot `j`, the clock advanced by `dt`. */
  function Merged(s: State, c: Config, i: int, j: int, dt: real): (r: State)
    requires WellFormed(c) && Inv(s, c) && MergePick(s.masses, i, j) && dt >= 0.0
    ensures Inv(r, c)
    ensures r.masses == Merge(s.masses, i, j) && r.nChains == s.nChains - 1
    ensures r.rings == s.rings && r.nRings == s.nRings && r.kMax == s.kMax && r.rMax == s.rMax
    ensures r.time == s.time + dt
  {
    MergeCounts(s.masses, i, j, Occupied);
    State(Merge(s.masses, i, j), s.rings, s.nChains - 1, s.nRings, s.kMax, s.rMax, s.time + dt)
  }

  /** The state after slot `k` closes into a ring, the clock advanced by `dt`. */
  function Cyclized(s: State, c: Config, k: int, dt: real): (r: State)
    requires WellFormed(c) && Inv(s, c) && 0 <= k < |s.masses| && s.masses[k] > 0 && dt >= 0.0
    ensures Inv(r, c)
    ensures r.masses == s.masses[k := 0] && r.rings == s.rings + [s.masses[k]]
    ensures r.nChains == s.nChains - 1 && r.nRings == s.nRings + 1
    ensures r.kMax == s.kMax && r.rMax == s.rMax && r.time == s.time + dt
  {
    var mk := s.masses[k];
    VacateCounts(s.masses, k);
    SumAppend(s.rings, mk);
    State(s.masses[k := 0], s.rings + [mk], s.nChains - 1, s.nRings + 1, s.kMax, s.rMax, s.time + dt)
  }

  /**
   * Coagulation attempt on the distinct occupied slots `i` and `j` with
   * acceptance coin `coin`.
   */
  function Coagulate(s: State, c: Config, i: int, j: int, coin: real): (r: State)
    requires WellFormed(c) && Inv(s, c) && s.nChains >= 2
    requires MergePick(s.masses, i, j) && 0.0 <= coin < 1.0
    ensures Inv(r, c)
    ensures r.kMax == Max(s.kMax, KRate(c, s.masses[i], s.masses[j])) && r.rMax == s.rMax
    ensures s.time <= r.time
    ensures r.rings == s.rings && r.nRings == s.nRings
    ensures r.kMax != s.kMax ==> r == s.(kMax := r.kMax)
    ensures r.masses != s.masses <==> Accepts(KRate(c, s.masses[i], s.masses[j]), s.kMax, coin)
    ensures r.masses == s.masses ==> r.nChains == s.nChains && r.time == s.time
    ensures r.masses != s.masses ==>
              && r.masses == Merge(s.masses, i, j)
              && r.nChains == s.nChains - 1
              && r.kMax == s.kMax
              && r.time == s.time + MergeDelay(c.alpha, c.ntot, s.nChains, c.density, KRate(c, s.masses[i], s.masses[j]))
  {
    var mi := s.masses[i];
    var mj := s.masses[j];
    var kij := KRate(c, mi, mj);
    var d := Decide(kij, s.kMax, coin);
    match d
    case Raise => s.(kMax := BoundAfter(kij, s.kMax, d))
    case Reject => s
    case Accept =>
      assert Merge(s.masses, i, j)[i] != s.masses[i];
      Merged(s, c, i, j, MergeDelay(c.alpha, c.ntot, s.nChains, c.density, kij))
  }

  /**
   * Cyclization attempt on the occupied slot `k` with acceptance coin
   * `coin`: the chain is appended to the ring store and its slot emptied.
   */
  function Cyclize(s: State, c: Config, k: int, coin: real): (r: State)
    requires WellFormed(c) && Inv(s, c) && s.rMax > 0.0
    requires 0 <= k < |s.masses| && s.masses[k] > 0 && 0.0 <= coin < 1.0
    ensures Inv(r, c)
    ensures r.rMax == Max(s.rMax, RRate(c, s.masses[k])) && r.kMax == s.kMax
    ensures s.time <= r.time
    ensures |s.rings| <= |r.rings| && r.rings[..|s.rings|] == s.rings
    ensures r.rMax != s.rMax ==> r == s.(rMax := r.rMax)
    ensures r.masses != s.masses <==> Accepts(RRate(c, s.masses[k]), s.rMax, coin)
    ensures r.masses == s.masses ==> r.rings == s.rings && r.nChains == s.nChains && r.time == s.time
    ensures r.masses != s.masses ==>
              && r.masses == s.masses[k := 0]
              && r.rings == s.rings + [s.masses[k]]
              && r.nChains == s.nChains - 1
              && r.nRings == s.nRings + 1
              && r.rMax == s.rMax
              && s.nChains >= 1 && RRate(c, s.masses[k]) > 0.0
              && r.time == s.time + RingDelay(c, s.nChains, RRate(c, s.masses[k]))
  {
    var mk := s.masses[k];
    var rmk := RRate(c, mk);
    var d := Decide(rmk, s.rMax, coin);
    match d
    case Raise => s.(rMax := BoundAfter(rmk, s.rMax, d))
    case Reject => s
    case Accept =>
      assert (s.rings + [mk])[..|s.rings|] == s.rings;
      assert s.nChains >= 1 by { assert Count(s.masses, Occupied) != 0; }
      Cyclized(s, c, k, RingDelay(c, s.nChains, rmk))
  }

  // ----- One loop iteration -----

  /** The random numbers one loop iteration consumes. */
  datatype Draws = Draws(channel: real, first: int, second: int, piece: int, accept: real)

  /**
   * Draws the script could have produced in state `s`: coins in [0, 1),
   * two distinct occupied slots for a coagulation attempt, one occupied
   * slot for a cyclization attempt.
   */
  predicate DrawsOk(s: State, c: Config, d: Draws)
    requires WellFormed(c) && Inv(s, c) && s.nChains >= 2
  {
    && 0.0 <= d.channel < 1.0 && 0.0 <= d.accept < 1.0
    && (d.channel < PCoag(s, c) ==> MergePick(s.masses, d.first, d.second))
    && (d.channel >= PCoag(s, c) ==> 0 <= d.piece < |s.masses| && s.masses[d.piece] > 0)
  }

  /** While the loop runs, legal slot draws exist for both channels. */
  lemma PicksExist(s: State, c: Config)
    requires Inv(s, c) && s.nChains >= 2
    ensures exists i, j :: MergePick(s.masses, i, j)
    ensures exists k :: 0 <= k < |s.masses| && s.masses[k] > 0
  {
    TwoOccupied(s.masses);
    var i, j :| 0 <= i < |s.masses| && 0 <= j < |s.masses| && i != j && s.masses[i] > 0 && s.masses[j] > 0;
    assert MergePick(s.masses, i, j);
  }

  /** One iteration of the loop body (entered only while `n_chains > 1`). */
  function Step(s: State, c: Config, d: Draws): (r: State)
    requires WellFormed(c) && Inv(s, c) && s.nChains >= 2 && DrawsOk(s, c, d)
    ensures Inv(r, c)
    ensures s.time <= r.time && s.kMax <= r.kMax && s.rMax <= r.rMax
    ensures |s.rings| <= |r.rings| && r.rings[..|s.rings|] == s.rings
    ensures r.nChains == s.nChains || r.nChains == s.nChains - 1
    ensures r.kMax != s.kMax || r.rMax != s.rMax ==> r.masses == s.masses && r.rings == s.rings && r.time == s.time
    ensures r.masses == s.masses ==> r.time == s.time
    ensures d.channel < PCoag(s, c) ==>
              (r.masses != s.masses <==> Accepts(KRate(c, s.masses[d.first], s.masses[d.second]), s.kMax, d.accept))
    ensures d.channel >= PCoag(s, c) ==>
              && s.rMax > 0.0
              && (r.masses != s.masses <==> Accepts(RRate(c, s.masses[d.piece]), s.rMax, d.accept))
    ensures d.channel < PCoag(s, c) ==>
              && r.rings == s.rings && r.rMax == s.rMax
              && (r.masses == s.masses
                  || (&& r.masses == Merge(s.masses, d.first, d.second)
                      && r.time == s.time + MergeDelay(c.alpha, c.ntot, s.nChains, c.density,
                                                       KRate(c, s.masses[d.first], s.masses[d.second]))))
    ensures d.channel >= PCoag(s, c) ==>
              && s.rMax > 0.0 && r.kMax == s.kMax
              && (r.masses == s.masses
                  || (&& r.masses == s.masses[d.piece := 0]
                      && r.rings == s.rings + [s.masses[d.piece]]
                      && c.pref > 0.0
                      && r.time == s.time + RingDelay(c, s.nChains, RRate(c, s.masses[d.piece]))))
  {
    var p := PCoag(s, c);
    if d.channel < p then Coagulate(s, c, d.first, d.second, d.accept)
    else
      assert s.rMax > 0.0;
      Cyclize(s, c, d.piece, d.accept)
  }

  // ----- Driver -----

  /** The loop guard `waiting_time < time_max and n_chains > 1`. */
  predicate Running(s: State, c: Config) {
    s.time < c.timeMax && s.nChains > 1
  }

  /** A single chain (or none) can no longer coagulate: the loop has ended. */
  lemma SingleChainTerminal(s: State, c: Config)
    requires s.nChains <= 1
    ensures !Running(s, c)
  {
  }

  /** The loop, fed one `Draws` per iteration; `None` when a draw is not one the script could make. */
  function Run(c: Config, s: State, ds: seq<Draws>): (r: Option<State>)
    requires WellFormed(c) && Inv(s, c)
    decreases |ds|
    ensures r.Some? ==> Inv(r.value, c) && s.time <= r.value.time
                         && s.kMax <= r.value.kMax && s.rMax <= r.value.rMax
                         && |s.rings| <= |r.value.rings| && r.value.rings[..|s.rings|] == s.rings
                         && r.value.nChains <= s.nChains
    ensures !Running(s, c) ==> r == Some(s)
  {
    if !Running(s, c) || |ds| == 0 then Some(s)
    else if !DrawsOk(s, c, ds[0]) then None
    else
      var t := Step(s, c, ds[0]);
      var r := Run(c, t, ds[1..]);
      assert r.Some? ==> r.value.rings[..|s.rings|] == r.value.rings[..|t.rings|][..|s.rings|];
      r
  }

  /**
   * With `glob_pref = 0` the bound `r_max` stays 0, `p_coag` is 1, and no
   * run ever forms a ring.
   */
  lemma {:induction false} NoRingsWithoutPrefactor(c: Config, s: State, ds: seq<Draws>)
    requires WellFormed(c) && Inv(s, c) && c.pref == 0.0 && s.rMax == 0.0 && s.rings == []
    decreases |ds|
    ensures Run(c, s, ds).Some? ==> Run(c, s, ds).value.rings == [] && Run(c, s, ds).value.rMax == 0.0
  {
    if Running(s, c) && |ds| > 0 && DrawsOk(s, c, ds[0]) {
      var t := Step(s, c, ds[0]);
      assert PCoag(s, c) == 1.0;
      NoRingsWithoutPrefactor(c, t, ds[1..]);
    }
  }

  /**
   * Two monomers: any accepted event (the merge or a cyclization) leaves a
   * single chain, and the loop stops at its next check.
   */
  lemma TwoMonomersHalt(c: Config, d: Draws)
    requires WellFormed(c) && c.ntot == 2 && DrawsOk(Init(c), c, d)
    ensures Step(Init(c), c, d).masses != Init(c).masses ==> !Running(Step(Init(c), c, d), c)
  {
  }
}

=== FILE: thinning.dfy ===
/**
 * The two-channel thinning skeleton both scripts share. Each step chooses
 * a channel with a probability computed from the two channels' rate
 * bounds, evaluates the true rate of a drawn candidate, and then either
 * raises the channel's bound (when the rate exceeds it), accepts with
 * probability rate/bound, or rejects.
 */
module Thinning {

  /** Reference definition of the larger of two reals. */
  function Max(a: real, b: real): real {
    if a >= b then a else b
  }

  /** Outcome of comparing a true rate with its channel's bound. */
  datatype Verdict = Raise | Accept | Reject

  /** The thinning test: a rate within its bound is kept with probability `rate/bound`. */
  predicate Accepts(rate: real, bound: real, coin: real)
    requires bound > 0.0
  {
    rate <= bound && coin < rate / bound
  }

  /**
   * `if rate > bound: bound = rate` / `elif coin < rate/bound: accept`,
   * for a coin drawn from [0, 1).
   */
  function Decide(rate: real, bound: real, coin: real): (d: Verdict)
    requires bound > 0.0 && 0.0 <= coin < 1.0
    ensures d == Raise <==> rate > bound
    ensures d == Accept <==> Accepts(rate, bound, coin)
    ensures d == Reject <==> rate <= bound && rate / bound <= coin
    ensures d != Raise && rate >= 0.0 ==> 0.0 <= rate / bound <= 1.0
    ensures d == Accept ==> rate > 0.0
    ensures rate >= bound ==> d != Reject
  {
    assert rate == bound ==> rate / bound == 1.0;
    if rate > bound then Raise
    else if Accepts(rate, bound, coin) then Accept
    else Reject
  }

  /** The bound after a decision: raised to the rate exactly when the rate exceeded it. */
  function BoundAfter(rate: real, bound: real, d: Verdict): (b: real)
    requires d == Raise <==> rate > bound
    ensures b == Max(bound, rate)
    ensures b >= bound && b >= rate
  {
    if d == Raise then rate else bound
  }

  lemma ProductNonNeg(a: real, b: real)
    requires a >= 0.0 && b >= 0.0
    ensures a * b >= 0.0
  {
  }

  /** A draw from [0, 1) scaled by a positive `n` lands in [0, n). */
  lemma ScaledDraw(u: real, n: real)
    requires 0.0 <= u < 1.0 && n > 0.0
    ensures 0.0 <= u * n < n
  {
  }

  lemma ProductPos(a: real, b: real)
    requires a > 0.0 && b > 0.0
    ensures a * b > 0.0
  {
  }

  /** A product of three non-negative weights is positive exactly when all three are. */
  lemma TripleProductSign(a: real, b: real, f: real)
    requires a >= 0.0 && b >= 0.0 && f >= 0.0
    ensures a * b * f >= 0.0
    ensures a * b * f > 0.0 <==> a > 0.0 && b > 0.0 && f > 0.0
  {
    ProductNonNeg(a, b);
    ProductNonNeg(a * b, f);
    if a > 0.0 && b > 0.0 && f > 0.0 {
      ProductPos(a, b);
      ProductPos(a * b, f);
    } else if a == 0.0 || b == 0.0 {
      assert a * b == 0.0;
    }
  }

  /** A product of three positive factors is positive. */
  lemma TriplePos(a: real, b: real, f: real)
    requires a > 0.0 && b > 0.0 && f > 0.0
    ensures a * b * f > 0.0
  {
    ProductPos(a, b);
    ProductPos(a * b, f);
  }

  /** The pair weight `n*(n-1)*density*k` of at least two molecules is positive. */
  lemma PairWeightPos(n: real, density: real, k: real)
    requires n >= 2.0 && density > 0.0 && k > 0.0
    ensures n * (n - 1.0) * density * k > 0.0
  {
    ProductPos(n, n - 1.0);
    TriplePos(n * (n - 1.0), density, k);
  }

  /** `2*a*n` for `n >= 0` has the sign of `a`, and vanishes with `n`. */
  lemma ScaledSign(a: real, n: real)
    requires n >= 0.0
    ensures a >= 0.0 ==> 2.0 * a * n >= 0.0
    ensures 2.0 * a * n > 0.0 <==> a > 0.0 && n > 0.0
  {
    if a > 0.0 && n > 0.0 {
      ProductPos(2.0 * a, n);
    } else if a >= 0.0 {
      ProductNonNeg(2.0 * a, n);
      assert a == 0.0 || n == 0.0;
    } else {
      ProductNonNeg(-2.0 * a, n);
    }
  }

  /** Dividing by a positive `w` keeps the sign. */
  lemma QuotientSign(x: real, w: real)
    requires w > 0.0
    ensures x >= 0.0 ==> x / w >= 0.0
    ensures x / w > 0.0 <==> x > 0.0
  {
  }

  /**
   * Clock increment of an accepted merge among `n` molecules, common to
   * both scripts: `2*Alpha*ntot/(n*(n-1)*density*k_ij)`.
   */
  function MergeDelay(alpha: real, ntot: nat, n: int, density: real, kij: real): (dt: real)
    requires n >= 2 && density > 0.0 && kij > 0.0
    ensures alpha >= 0.0 ==> dt >= 0.0
    ensures dt > 0.0 <==> alpha > 0.0 && ntot > 0
  {
    var w := n as real * (n as real - 1.0) * density * kij;
    PairWeightPos(n as real, density, kij);
    ScaledSign(alpha, ntot as real);
    QuotientSign(2.0 * alpha * ntot as real, w);
    2.0 * alpha * ntot as real / w
  }

  /**
   * Probability of attempting the first channel,
   * `1/(1 + x/y)`, where `x` weighs the second channel's bound and `y`
   * the first's.
   */
  function ChannelProbability(x: real, y: real): (p: real)
    requires x >= 0.0 && y > 0.0
    ensures 0.0 < p <= 1.0
    ensures p < 1.0 <==> x > 0.0
  {
    var q := x / y;
    assert q >= 0.0 && (q > 0.0 <==> x > 0.0);
    1.0 / (1.0 + q)
  }
}
